=== FILE: README.md ===
# Poetica core in Dafny

A model of the logic of a small React Native poetry app. Users sign in,
read a random quote, share poems to an in-memory list, and move between
the Login, Home, Share, Settings and Profile screens. The React hooks
become explicit state records, and event handlers become pure transition
functions. Alerts and navigation are returned as values; they are not side
effects.

Modules, one per source file or concern:

- `Wrappers`: `Option`, used for JavaScript props that may be `undefined` and for optional navigation targets.
- `Text`: the JavaScript string primitives the screens rely on.
  - The whitespace set shared by `String.prototype.trim` and the regex class `\s` (sections 12.2 and 12.3 of ECMA-262).
  - `trim`, and the UTF-16 `length` of a string.
  - `Number.prototype.toString` on non-negative integers, with a decimal parser as its inverse.
  - `split(sep)[0]`.
- `PoetryData`: the `Quote` and `Poem` records, the seven quotes, the two seed poems, and `getRandomQuote`.
- `LoginScreen`: the form state and the e-mail regular expression.
  - An explicit characterization of that regex, proved equivalent to it.
  - The ordered submit checks (`handleAuth`), their alerts, and the sign-in/sign-up toggle.
- `ShareScreen`: drafts, the poem list, `handleSubmit`, and event runs.
  - An invariant: the ids are always exactly "1" .. "n", each once.
  - So the "No poems shared yet" branch is unreachable.
- `CustomHeader`: the back-press decision, the left/centre layout, padding, background, and the right-hand actions with their targets.
- `AppNavigator`: the route list, the initial route, and the per-screen header table.
  - Combined with the header layout: no registered screen ever shows a centred title.
- `NavigationBar`: the tab list, the route-to-icon switch, and the tab options.

Two facts about the program worth stating plainly:

- The header has no quick-actions overlay: the avatar navigates straight to Profile.
- The missing-field alert on the login screen shows one fixed message, whichever field is blank.

Modelling choices:

- `Math.random()` is a parameter: the exact fraction `numer / denom` in [0, 1).
- `new Date().toISOString()` is a parameter `now`.
- `navigation.canGoBack()` is a parameter.
- Window width and the safe-area inset are `real`. They are only compared, never computed with.

## Model

| member | source | states |
|---|---|---|
| Text.Trim | src/screens/ShareScreen.tsx:40-42 | the result is an infix of the input. It is flanked by all-whitespace runs and neither starts nor ends with whitespace. It is empty exactly when the input is all whitespace, which is the `!x.trim()` test |
| Text.TrimIdempotent | src/screens/ShareScreen.tsx:40-42 | trimming an already trimmed field changes nothing |
| Text.Utf16Length | src/screens/LoginScreen.tsx:40 | `length` counts UTF-16 code units: a single character counts two above U+FFFF and one otherwise; a string counts between one and two per character, and exactly one per character when all are in the Basic Multilingual Plane |
| Text.Utf16LengthConcat | src/screens/LoginScreen.tsx:40 | the code-unit length of a concatenation is the sum of the parts' lengths, so with the one-character case the length of every string is fixed |
| Text.NatToString | src/screens/ShareScreen.tsx:39 | `(n).toString()` is a non-empty string of decimal digits with no leading zero unless n is 0 |
| Text.NatToStringRoundTrip | src/screens/ShareScreen.tsx:39 | parsing the decimal `toString` of a number gives the number back |
| Text.NatToStringInjective | src/screens/ShareScreen.tsx:39 | two numbers print to the same id string exactly when they are equal |
| Text.BeforeFirst | src/screens/ShareScreen.tsx:43 | `split('T')[0]` is the longest prefix without 'T'. When it is shorter than the input, the next character is 'T' |
| Text.BeforeFirstOfJoin | src/screens/ShareScreen.tsx:43 | splitting `d + sep + rest` at the first `sep` gives back `d` when `d` has no `sep` |
| PoetryData.RandomIndex | src/data/poetryData.ts:76 | `floor(random * quotes.length)` is always a valid index and is the floor of the draw scaled by the quote count |
| PoetryData.GetRandomQuote | src/data/poetryData.ts:75-78 | every draw in [0, 1) returns a member of `quotes`, so the pick is total |
| PoetryData.RandomIndexInterval | src/data/poetryData.ts:76 | index i is computed exactly for draws in [i/7, (i+1)/7), an equal share of the unit interval for each index |
| PoetryData.GetRandomQuoteInterval | src/data/poetryData.ts:75-78 | `getRandomQuote` returns quote i exactly for draws in [i/7, (i+1)/7): each quote gets an equal share, because the quotes' ids are distinct |
| PoetryData.EveryQuoteReachable | src/data/poetryData.ts:75-78 | every quote is returned by some draw |
| PoetryData.QuoteIds | src/data/poetryData.ts:20-56 | there are 7 quotes with ids "1" through "7" in order, pairwise distinct |
| PoetryData.SeedPoemFacts | src/data/poetryData.ts:58-73 | there are two seed poems with ids "1" and "2". Both have author "Anonymous" and a date of `YYYY-MM-DD` shape |
| LoginScreen.EmailPatternMatches | src/screens/LoginScreen.tsx:52-55 | `isValidEmail`, the anchored regex `^[^\s@]+@[^\s@]+\.[^\s@]+$`: an accepted string has at least 5 characters and starts and ends with a non-whitespace character |
| LoginScreen.PatternIsEmailShaped | src/screens/LoginScreen.tsx:52-55 | a string that the regex splits as local '@' host '.' tail has no whitespace and exactly one '@'. Something precedes the '@', and a '.' is inside the domain |
| LoginScreen.EmailShapedMatchesPattern | src/screens/LoginScreen.tsx:52-55 | conversely, such a string is accepted by the regex |
| LoginScreen.EmailPatternCharacterized | src/screens/LoginScreen.tsx:52-55 | the regex accepts a string iff all of these hold: no whitespace, exactly one '@', a non-empty part before it, and a '.' after it that is neither the first nor the last character of the domain |
| LoginScreen.ExampleEmailShaped | src/screens/LoginScreen.tsx:53 | "a@b.com" meets the e-mail shape |
| LoginScreen.HandleAuth | src/screens/LoginScreen.tsx:28-50 | Missing Information iff either field is blank after trimming, checked first. Invalid Email iff both are non-blank and the untrimmed e-mail is not e-mail-shaped. Invalid Password iff the e-mail is shaped, the password non-blank and under 6 UTF-16 units. Success iff all three checks pass, carrying the current mode |
| LoginScreen.AuthAlert | src/screens/LoginScreen.tsx:31-49 | only the success alert navigates, and its OK button goes to Home |
| LoginScreen.AuthAlertsDistinct | src/screens/LoginScreen.tsx:31-49 | the four outcomes have four different alert titles. The success message depends only on the sign-in/sign-up mode |
| LoginScreen.ToggleAuthMode | src/screens/LoginScreen.tsx:57-62 | toggling flips the mode and empties both fields |
| LoginScreen.ToggleTwice | src/screens/LoginScreen.tsx:57-62 | toggling twice restores the mode with empty fields. It restores the whole state only when the fields were already empty |
| LoginScreen.Step | src/screens/LoginScreen.tsx:24-62 | pressing submit changes neither field nor the mode and raises the alert for `handleAuth`. Typing changes only that field. Only the toggle changes the mode, and it also empties both fields |
| LoginScreen.EmptyFormIsMissingInfo | src/screens/LoginScreen.tsx:24-33 | submitting the initial form (empty fields, sign-in mode), or any form right after a toggle, gives Missing Information |
| LoginScreen.PaddedEmailIsInvalid | src/screens/LoginScreen.tsx:30-38 | a non-blank e-mail with whitespace at either end gives Invalid Email, not Missing Information, because the pattern sees the untrimmed e-mail |
| LoginScreen.NotAnEmailIsInvalid | src/screens/LoginScreen.tsx:35-38 | "not-an-email"/"abcdef" gives Invalid Email |
| LoginScreen.ShortPasswordIsInvalid | src/screens/LoginScreen.tsx:40-43 | "a@b.com"/"12345" gives Invalid Password |
| LoginScreen.LongEnoughPasswordSucceeds | src/screens/LoginScreen.tsx:47-49 | "a@b.com"/"123456" succeeds in either mode |
| ShareScreen.DateOf | src/screens/ShareScreen.tsx:43 | the stored date is the prefix of the timestamp up to its first 'T' (all of it when there is none) |
| ShareScreen.DateOfIsoTimestamp | src/screens/ShareScreen.tsx:43 | an ISO timestamp `YYYY-MM-DDT...` yields its `YYYY-MM-DD` day |
| ShareScreen.NewPoem | src/screens/ShareScreen.tsx:38-44 | the new id is the decimal numeral of the old length + 1 and parses back to it. Title and content are stored trimmed. The author is stored trimmed, or as "Anonymous" when blank, so it is never empty |
| ShareScreen.HandleSubmit | src/screens/ShareScreen.tsx:32-50 | rejected iff title or content is blank, and then nothing changes. Otherwise the list grows by exactly one with the old entries after the new poem in their order. The new poem's title and content are non-empty, and all three drafts are cleared |
| ShareScreen.SubmitAlert | src/screens/ShareScreen.tsx:32-55 | the "Success" alert is raised exactly when a poem is added |
| ShareScreen.SunsetExample | src/screens/ShareScreen.tsx:38-46 | "Sunset"/"Orange sky"/"" adds, at the front, a poem by "Anonymous" whose id is the old length + 1 |
| ShareScreen.Step | src/screens/ShareScreen.tsx:27-55 | editing a draft changes only that draft and never the list. A submit event is exactly `handleSubmit` on the current state |
| ShareScreen.PrependKeepsIds | src/screens/ShareScreen.tsx:39-46 | prepending a poem numbered n + 1 to a list whose ids are exactly "1" .. "n" keeps the ids exactly "1" .. "n + 1", all distinct |
| ShareScreen.NextNumeralIsFresh | src/screens/ShareScreen.tsx:39 | the id given to a new poem is not among "1" .. "n" |
| ShareScreen.SeedIdsAreOneToN | src/screens/ShareScreen.tsx:27 | the seed list starts with ids exactly "1" .. "2" |
| ShareScreen.RunKeepsIds | src/screens/ShareScreen.tsx:27-49 | any sequence of edits and submissions keeps the ids exactly "1" .. "n" and never shrinks the list |
| ShareScreen.ListViewOf | src/screens/ShareScreen.tsx:91-102 | the "No poems shared yet" message is rendered iff the list is empty |
| ShareScreen.ReachableShareStates | src/screens/ShareScreen.tsx:27-92 | every state reachable from the initial screen has at least two poems with pairwise distinct ids, so the empty-list message is never rendered |
| CustomHeader.HandleBackPress | src/components/CustomHeader.tsx:63-69 | a supplied `onBackPress` is invoked and `goBack` is not. Otherwise `goBack` happens iff `canGoBack`, else nothing happens |
| CustomHeader.ActionTarget | src/components/CustomHeader.tsx:140-203 | only the settings icon and the avatar navigate; search and the bell do not |
| CustomHeader.Layout | src/components/CustomHeader.tsx:26-137 | back button iff `showBackButton` (default false), else the logo. "Back" label iff `title` is non-empty and width > 360. Centred title iff `title` is non-empty and there is no back button. Padding is the top inset when positive, else 10. Background is transparent iff `transparent` (default false). The four right-hand actions are always present |
| CustomHeader.TitleShownAtMostOnce | src/components/CustomHeader.tsx:88-137 | a centred title and a "Back" label never appear together, and a centred title always sits beside the logo |
| AppNavigator.ParseRoute | src/navigation/AppNavigator.tsx:21-27 | a name that resolves to a route is that route's name |
| AppNavigator.RouteNameRoundTrip | src/navigation/AppNavigator.tsx:21-27 | every route's name resolves back to it |
| AppNavigator.ScreensAreTheRoutes | src/navigation/AppNavigator.tsx:21-77 | the registered screens are exactly Login, Home, Share, Settings and Profile, each once, and the initial route is Login |
| AppNavigator.HeaderFor | src/navigation/AppNavigator.tsx:41-77 | only Login has no header |
| AppNavigator.HeaderLeftSections | src/navigation/AppNavigator.tsx:48-77 | Home's header shows the logo. Share, Settings and Profile show a back button, labelled "Back" exactly on windows wider than 360 |
| AppNavigator.NoScreenCentresItsTitle | src/navigation/AppNavigator.tsx:48-77 | every titled header in the table also sets `showBackButton`, so no registered screen ever shows a centred title |
| AppNavigator.RegisteredBackPress | src/navigation/AppNavigator.tsx:53-75 | only Share, Settings and Profile show a back button. None of them supplies `onBackPress`, so pressing back goes back iff `canGoBack` and otherwise does nothing |
| AppNavigator.HeaderTargetsAreRoutes | src/components/CustomHeader.tsx:174-195 | the header's settings icon leads to the Settings route and its avatar to the Profile route, both registered |
| NavigationBar.TabIcon | src/components/NavigationBar.tsx:37-56 | a route name gets the default "circle" icon iff it is not one of the five tabs |
| NavigationBar.TabScreenOptions | src/components/NavigationBar.tsx:24-59 | every tab hides both the header and the label. The icon is the `tabBarIcon` switch's result for that route name, so it is non-default iff the name is a listed tab |
| NavigationBar.TabIconsDistinct | src/components/NavigationBar.tsx:38-66 | there are five tabs: Home, Search, Reels, Notifications and Profile. Their icons are home, search, play-circle, heart and user, pairwise distinct and never the default |

## Left out

- Rendering and styling are not modelled: JSX layout, `StyleSheet`, tint colours, the header's shadow opacity, the styled primitives and the theme palette. They are presentation constants with no behaviour.
- The header's mount and focus animations (`Animated.parallel`/`timing`) are not modelled. They are timed visual effects that carry no state.
- `StatusBar` and `Platform` calls are not modelled. They are platform APIs.
- `console.log` in the search and bell handlers is not modelled; those actions simply have no navigation target.
- The `scrollTo` after a successful submission is not modelled. It is a view effect; a `PoemAdded` outcome is where it happens.
- PoetryData.GetRandomQuote: the draw is an exact fraction. The floating-point product `Math.random() * quotes.length` and its rounding are not modelled.
- The clock is not modelled: `new Date()` is the `now` parameter of the share screen's submit.
- React Navigation's stack is not modelled: pushing, popping, `canGoBack` and focus events belong to that library. `canGoBack` is an input, and a navigation is an output value (a route or a route name).
- The login success alert navigates only after its OK button is pressed. This is modelled as the alert's `onOk` target, not as a separate event.
- `src/screens/HomeScreen.tsx` draws a quote with `getRandomQuote` on mount, on focus and when refresh is pressed (each draw is `GetRandomQuote`), and its button navigates to Share. The screen's state and its stack navigation are not modelled.
- `src/screens/ProfileScreen.tsx` and `src/screens/SettingsScreen.tsx` hold static mock data and inert toggles.
- `App.tsx` is wiring only.
- Strings are sequences of Unicode scalar values, so a JavaScript string holding an unpaired surrogate has no counterpart in the model.

=== FILE: app_navigator.dfy ===
/** The stack navigator: the route names, the initial route and the
    per-screen header table. */
module AppNavigator {
  import opened Wrappers
  import opened CustomHeader

  /** `RootStackParamList`: the five screens; none takes parameters. */
  datatype Route = Login | Home | Share | Settings | Profile

  /** The screens in registration order. */
  const Screens: seq<Route> := [Login, Home, Share, Settings, Profile]

  function RouteName(r: Route): string {
    match r
    case Login => "Login"
    case Home => "Home"
    case Share => "Share"
    case Settings => "Settings"
    case Profile => "Profile"
  }

  /** The route a `navigate(name)` call refers to, if the name is registered. */
  function ParseRoute(name: string): (r: Option<Route>)
    ensures r.Some? ==> RouteName(r.value) == name
  {
    if name == "Login" then Some(Login)
    else if name == "Home" then Some(Home)
    else if name == "Share" then Some(Share)
    else if name == "Settings" then Some(Settings)
    else if name == "Profile" then Some(Profile)
    else None
  }

  /** Route names and routes are in one-to-one correspondence. */
  lemma RouteNameRoundTrip(r: Route)
    ensures ParseRoute(RouteName(r)) == Some(r)
  {
  }

  /** `initialRouteName`. */
  const InitialRouteName := "Login"

  /** Every route is registered exactly once, and the initial name is the
      Login route. */
  lemma ScreensAreTheRoutes(r: Route)
    ensures r in Screens
    ensures forall i, j | 0 <= i < j < |Screens| :: Screens[i] != Screens[j]
    ensures ParseRoute(InitialRouteName) == Some(Login)
  {
  }

  datatype ScreenHeader = NoHeader | Custom(props: HeaderProps)

  /** The `options` of each `Stack.Screen`. */
  function HeaderFor(r: Route): (h: ScreenHeader)
    ensures h.NoHeader? <==> r == Login
  {
    match r
    case Login => NoHeader
    case Home => Custom(HeaderProps(None, None, false, None))
    case Share => Custom(HeaderProps(Some("Share Poem"), Some(true), false, None))
    case Settings => Custom(HeaderProps(Some("Settings"), Some(true), false, None))
    case Profile => Custom(HeaderProps(Some("Profile"), Some(true), false, None))
  }

  /** Home shows the logo; Share, Settings and Profile show a back button,
      labelled "Back" exactly on windows wider than 360. */
  lemma HeaderLeftSections(r: Route, v: Viewport)
    requires r != Login
    ensures Layout(HeaderFor(r).props, v).left ==
              if r == Home then Logo else BackButton(v.width > BackLabelMinWidth)
  {
  }

  /** Every titled header in the table also asks for a back button, so no
      registered screen ever shows a centred title. */
  lemma NoScreenCentresItsTitle(r: Route, v: Viewport)
    ensures HeaderFor(r).Custom? && HasTitle(HeaderFor(r).props) ==> ShowsBackButton(HeaderFor(r).props)
    ensures HeaderFor(r).Custom? ==> Layout(HeaderFor(r).props, v).centredTitle == None
  {
  }

  /** No registered header supplies `onBackPress`, so wherever a back button
      is shown, pressing it pops the stack when possible and otherwise does
      nothing; the caller-callback branch is never taken. */
  lemma RegisteredBackPress(r: Route, canGoBack: bool)
    requires HeaderFor(r).Custom? && ShowsBackButton(HeaderFor(r).props)
    ensures r in {Share, Settings, Profile}
    ensures HandleBackPress(HeaderFor(r).props.hasOnBackPress, canGoBack)
         == if canGoBack then GoBack else Ignore
  {
  }

  /** The header's navigating actions lead to Settings and Profile, both
      registered routes. */
  lemma HeaderTargetsAreRoutes(a: HeaderAction)
    ensures ActionTarget(a).Some? ==> ParseRoute(ActionTarget(a).value).Some?
    ensures a == SettingsAction ==> ParseRoute(ActionTarget(a).value) == Some(Settings)
    ensures a == AvatarAction ==> ParseRoute(ActionTarget(a).value) == Some(Profile)
  {
  }
}

=== FILE: custom_header.dfy ===
/** The shared top bar: back-press decision, left/centre layout, padding,
    background, and the right-hand action cluster. */
module CustomHeader {
  import opened Wrappers

  /** The component's props. `title`, `showBackButton` and `transparent` may
      be left undefined; `onBackPress` is a callback, of which only its
      presence matters here. */
  datatype HeaderProps = HeaderProps(
    title: Option<string>,
    showBackButton: Option<bool>,
    hasOnBackPress: bool,
    transparent: Option<bool>)

  /** The window width and the top safe-area inset, in layout units. */
  datatype Viewport = Viewport(width: real, insetTop: real)

  /** Below this width (inclusive) the back button carries no "Back" label. */
  const BackLabelMinWidth: real := 360.0

  /** Top padding when the device reports no safe-area inset. */
  const FallbackPaddingTop: real := 10.0

  /** `showBackButton` with its default `false`. */
  function ShowsBackButton(p: HeaderProps): bool {
    p.showBackButton.GetOr(false)
  }

  /** `transparent` with its default `false`. */
  function IsTransparent(p: HeaderProps): bool {
    p.transparent.GetOr(false)
  }

  /** JavaScript truthiness of `title`: defined and non-empty. */
  predicate HasTitle(p: HeaderProps) {
    p.title.Some? && p.title.value != ""
  }

  datatype BackAction = CallOnBackPress | GoBack | Ignore

  /** `handleBackPress`: the caller's callback wins; otherwise the stack is
      popped when it can be, and nothing happens when it cannot. */
  function HandleBackPress(hasOnBackPress: bool, canGoBack: bool): (a: BackAction)
    ensures a == CallOnBackPress <==> hasOnBackPress
    ensures a == GoBack <==> !hasOnBackPress && canGoBack
    ensures a == Ignore <==> !hasOnBackPress && !canGoBack
  {
    if hasOnBackPress then CallOnBackPress
    else if canGoBack then GoBack
    else Ignore
  }

  datatype LeftSection = BackButton(showsBackLabel: bool) | Logo

  datatype Background = TransparentBackground | ThemeBackground

  datatype HeaderAction = SearchAction | NotificationsAction | SettingsAction | AvatarAction

  /** The right-hand cluster, left to right. */
  const RightActions: seq<HeaderAction> :=
    [SearchAction, NotificationsAction, SettingsAction, AvatarAction]

  /** Where pressing an action navigates, by route name; search and
      notifications only log. */
  function ActionTarget(a: HeaderAction): (target: Option<string>)
    ensures target.Some? <==> a == SettingsAction || a == AvatarAction
  {
    match a
    case SettingsAction => Some("Settings")
    case AvatarAction => Some("Profile")
    case _ => None
  }

  datatype HeaderLayout = HeaderLayout(
    left: LeftSection,
    centredTitle: Option<string>,
    paddingTop: real,
    background: Background,
    actions: seq<HeaderAction>)

  /** What the header renders for the given props and viewport. */
  function Layout(p: HeaderProps, v: Viewport): (h: HeaderLayout)
    ensures h.left.BackButton? <==> ShowsBackButton(p)
    ensures h.left.BackButton? ==>
              (h.left.showsBackLabel <==> HasTitle(p) && v.width > BackLabelMinWidth)
    ensures h.centredTitle.Some? <==> HasTitle(p) && !ShowsBackButton(p)
    ensures h.centredTitle.Some? ==> p.title == h.centredTitle
    ensures h.paddingTop > 0.0
    ensures h.paddingTop == v.insetTop || (v.insetTop <= 0.0 && h.paddingTop == FallbackPaddingTop)
    ensures h.background == TransparentBackground <==> p.transparent == Some(true)
    ensures h.actions == RightActions
  {
    var back := ShowsBackButton(p);
    var clear := IsTransparent(p);
    HeaderLayout(
      if back then BackButton(HasTitle(p) && v.width > BackLabelMinWidth) else Logo,
      if HasTitle(p) && !back then p.title else None,
      if v.insetTop > 0.0 then v.insetTop else FallbackPaddingTop,
      if clear then TransparentBackground else ThemeBackground,
      RightActions)
  }

  /** The header never shows the title twice: a centred title and a "Back"
      label exclude each other, and a title only reaches the screen in the
      centre. */
  lemma TitleShownAtMostOnce(p: HeaderProps, v: Viewport)
    ensures !(Layout(p, v).centredTitle.Some? && Layout(p, v).left == BackButton(true))
    ensures Layout(p, v).centredTitle.Some? ==> Layout(p, v).left == Logo
  {
  }
}

=== FILE: login_screen.dfy ===
/** The login form: its state, the e-mail pattern, the ordered submit checks
    and the sign-in/sign-up toggle. Alerts and navigation are returned as
    values. */
module LoginScreen {
  import opened Wrappers
  import opened Text
  import AppNavigator

  datatype LoginState = LoginState(email: string, password: string, isLogin: bool)

  /** The `useState` initial values: empty fields, sign-in mode. */
  const InitialLogin := LoginState("", "", true)

  /** Passwords shorter than this many UTF-16 code units are refused. */
  const MinPasswordLength := 6

  /** No whitespace and no '@': the regular-expression class `[^\s@]`. */
  predicate NoSpaceOrAt(s: string) {
    forall k | 0 <= k < |s| :: !IsSpace(s[k]) && s[k] != '@'
  }

  /** `/^[^\s@]+@[^\s@]+\.[^\s@]+$/.test(s)`: `s` splits as
      local '@' host '.' tail, three non-empty runs without whitespace or '@'. */
  predicate EmailPatternMatches(s: string)
    ensures EmailPatternMatches(s) ==> 5 <= |s| && !IsSpace(s[0]) && !IsSpace(s[|s| - 1])
  {
    exists at, dot | 0 < at && at + 1 < dot && dot + 1 < |s| ::
      && s[at] == '@' && s[dot] == '.'
      && NoSpaceOrAt(s[..at]) && NoSpaceOrAt(s[at + 1..dot]) && NoSpaceOrAt(s[dot + 1..])
  }

  /** The pattern read as conditions on the whole string: no whitespace,
      exactly one '@', something before it, and a '.' after it that is
      neither the first nor the last character of the domain. */
  predicate IsEmailShaped(s: string) {
    && (forall k | 0 <= k < |s| :: !IsSpace(s[k]))
    && multiset(s)['@'] == 1
    && exists at, dot | 0 < at && at + 1 < dot && dot + 1 < |s| :: s[at] == '@' && s[dot] == '.'
  }

  lemma NoAtCountsZero(s: string)
    requires NoSpaceOrAt(s)
    ensures multiset(s)['@'] == 0
  {
    assert '@' !in s;
  }

  lemma TwoOccurrences(s: string, i: nat, j: nat, c: char)
    requires i < j < |s| && s[i] == c && s[j] == c
    ensures multiset(s)[c] >= 2
  {
    assert s == s[..i] + [s[i]] + s[i + 1..j] + [s[j]] + s[j + 1..];
  }

  lemma PatternIsEmailShaped(s: string, at: nat, dot: nat)
    requires 0 < at && at + 1 < dot && dot + 1 < |s|
    requires s[at] == '@' && s[dot] == '.'
    requires NoSpaceOrAt(s[..at]) && NoSpaceOrAt(s[at + 1..dot]) && NoSpaceOrAt(s[dot + 1..])
    ensures IsEmailShaped(s)
  {
    forall k | 0 <= k < |s| ensures !IsSpace(s[k]) {
      if k < at { assert s[k] == s[..at][k]; }
      else if at < k < dot { assert s[k] == s[at + 1..dot][k - at - 1]; }
      else if dot < k { assert s[k] == s[dot + 1..][k - dot - 1]; }
    }
    assert s == s[..at] + [s[at]] + s[at + 1..dot] + [s[dot]] + s[dot + 1..];
    NoAtCountsZero(s[..at]);
    NoAtCountsZero(s[at + 1..dot]);
    NoAtCountsZero(s[dot + 1..]);
  }

  lemma EmailShapedMatchesPattern(s: string)
    requires IsEmailShaped(s)
    ensures EmailPatternMatches(s)
  {
    var at, dot :| 0 < at && at + 1 < dot && dot + 1 < |s| && s[at] == '@' && s[dot] == '.';
    forall k | 0 <= k < |s| && k != at ensures s[k] != '@' {
      if s[k] == '@' {
        if k < at { TwoOccurrences(s, k, at, '@'); } else { TwoOccurrences(s, at, k, '@'); }
      }
    }
    assert NoSpaceOrAt(s[..at]);
    assert NoSpaceOrAt(s[at + 1..dot]);
    assert NoSpaceOrAt(s[dot + 1..]);
  }

  /** The regular expression accepts exactly the e-mail-shaped strings. */
  lemma EmailPatternCharacterized(s: string)
    ensures EmailPatternMatches(s) <==> IsEmailShaped(s)
  {
    if EmailPatternMatches(s) {
      var at, dot :| 0 < at && at + 1 < dot && dot + 1 < |s|
        && s[at] == '@' && s[dot] == '.'
        && NoSpaceOrAt(s[..at]) && NoSpaceOrAt(s[at + 1..dot]) && NoSpaceOrAt(s[dot + 1..]);
      PatternIsEmailShaped(s, at, dot);
    }
    if IsEmailShaped(s) {
      EmailShapedMatchesPattern(s);
    }
  }

  datatype AuthOutcome = MissingInfo | InvalidEmail | InvalidPassword | Success(isLogin: bool)

  /** `handleAuth`: blank fields first, then the e-mail pattern on the
      untrimmed e-mail, then the raw password length. */
  function HandleAuth(st: LoginState): (r: AuthOutcome)
    ensures r == MissingInfo <==> IsBlank(st.email) || IsBlank(st.password)
    ensures r == InvalidEmail <==>
              !IsBlank(st.email) && !IsBlank(st.password) && !IsEmailShaped(st.email)
    ensures r == InvalidPassword <==>
              IsEmailShaped(st.email) && !IsBlank(st.password)
              && Utf16Length(st.password) < MinPasswordLength
    ensures r.Success? <==>
              IsEmailShaped(st.email) && !IsBlank(st.password)
              && Utf16Length(st.password) >= MinPasswordLength
    ensures r.Success? ==> r.isLogin == st.isLogin
  {
    EmailPatternCharacterized(st.email);
    assert IsEmailShaped(st.email) ==> !IsBlank(st.email) by {
      if IsEmailShaped(st.email) { assert !IsSpace(st.email[0]); }
    }
    if Trim(st.email) == "" || Trim(st.password) == "" then MissingInfo
    else if !EmailPatternMatches(st.email) then InvalidEmail
    else if Utf16Length(st.password) < MinPasswordLength then InvalidPassword
    else Success(st.isLogin)
  }

  /** An alert: its title, its message, and the route its OK button opens. */
  datatype Alert = Alert(title: string, message: string, onOk: Option<AppNavigator.Route>)

  /** The alert `handleAuth` raises for an outcome. */
  function AuthAlert(r: AuthOutcome): (a: Alert)
    ensures a.onOk.Some? <==> r.Success?
    ensures a.onOk.Some? ==> a.onOk.value == AppNavigator.Home
  {
    match r
    case MissingInfo => Alert("Missing Information", "Please enter both email and password.", None)
    case InvalidEmail => Alert("Invalid Email", "Please enter a valid email address.", None)
    case InvalidPassword =>
      Alert("Invalid Password", "Password must be at least 6 characters long.", None)
    case Success(isLogin) =>
      Alert("Success", if isLogin then "Login successful!" else "Account created successfully!",
            Some(AppNavigator.Home))
  }

  /** Each outcome has its own alert title, and the success message depends
      only on the mode. */
  lemma AuthAlertsDistinct(r1: AuthOutcome, r2: AuthOutcome)
    ensures AuthAlert(r1).title == AuthAlert(r2).title <==> r1.Success? == r2.Success? && (r1.Success? || r1 == r2)
    ensures r1.Success? && r2.Success? ==>
              (AuthAlert(r1) == AuthAlert(r2) <==> r1.isLogin == r2.isLogin)
  {
  }

  /** `toggleAuthMode`: flip the mode and clear both fields. */
  function ToggleAuthMode(st: LoginState): (r: LoginState)
    ensures r.isLogin != st.isLogin
    ensures r.email == "" && r.password == ""
  {
    LoginState("", "", !st.isLogin)
  }

  /** Toggling twice restores the mode but not the typed fields. */
  lemma ToggleTwice(st: LoginState)
    ensures ToggleAuthMode(ToggleAuthMode(st)) == LoginState("", "", st.isLogin)
    ensures ToggleAuthMode(ToggleAuthMode(st)) == st <==> st.email == "" && st.password == ""
  {
  }

  datatype LoginEvent = EditEmail(text: string) | EditPassword(text: string) | PressAuth | PressToggle

  datatype LoginStep = LoginStep(state: LoginState, alert: Option<Alert>)

  /** One user event on the login screen. */
  function Step(st: LoginState, ev: LoginEvent): (r: LoginStep)
    ensures ev == PressAuth ==> r.state == st && r.alert == Some(AuthAlert(HandleAuth(st)))
    ensures ev != PressAuth ==> r.alert == None
    ensures ev.EditEmail? ==> r.state == st.(email := ev.text)
    ensures ev.EditPassword? ==> r.state == st.(password := ev.text)
    ensures r.state.isLogin != st.isLogin <==> ev == PressToggle
    ensures ev == PressToggle ==> r.state == ToggleAuthMode(st)
  {
    match ev
    case EditEmail(t) => LoginStep(st.(email := t), None)
    case EditPassword(t) => LoginStep(st.(password := t), None)
    case PressAuth => LoginStep(st, Some(AuthAlert(HandleAuth(st))))
    case PressToggle => LoginStep(ToggleAuthMode(st), None)
  }

  /** Submitting the untouched form, or the form right after a toggle, is
      reported as missing information. */
  lemma EmptyFormIsMissingInfo(st: LoginState)
    ensures HandleAuth(InitialLogin) == MissingInfo
    ensures HandleAuth(ToggleAuthMode(st)) == MissingInfo
  {
  }

  /** The e-mail is checked untrimmed: a non-blank e-mail with whitespace at
      either end is an invalid e-mail, never missing information. */
  lemma PaddedEmailIsInvalid(st: LoginState)
    requires !IsBlank(st.email) && !IsBlank(st.password)
    requires IsSpace(st.email[0]) || IsSpace(st.email[|st.email| - 1])
    ensures HandleAuth(st) == InvalidEmail
  {
  }

  /** Worked cases. */
  lemma NotAnEmailIsInvalid()
    ensures HandleAuth(LoginState("not-an-email", "abcdef", true)) == InvalidEmail
  {
    var e := "not-an-email";
    assert !IsSpace(e[0]) && !IsSpace("abcdef"[0]);
    assert '@' !in e;
  }

  lemma ShortPasswordIsInvalid()
    ensures HandleAuth(LoginState("a@b.com", "12345", true)) == InvalidPassword
  {
    var pw := "12345";
    ExampleEmailShaped();
    assert !IsSpace(pw[0]);
    assert forall k | 0 <= k < |pw| :: pw[k] as int <= 0xFFFF;
    assert Utf16Length(pw) == 5;
  }

  lemma LongEnoughPasswordSucceeds(isLogin: bool)
    ensures HandleAuth(LoginState("a@b.com", "123456", isLogin)) == Success(isLogin)
  {
    var pw := "123456";
    ExampleEmailShaped();
    assert !IsSpace(pw[0]);
    assert forall k | 0 <= k < |pw| :: pw[k] as int <= 0xFFFF;
    assert Utf16Length(pw) == 6;
  }

  lemma ExampleEmailShaped()
    ensures IsEmailShaped("a@b.com")
  {
    var e := "a@b.com";
    assert e == ['a'] + ['@'] + ['b'] + ['.'] + ['c', 'o', 'm'];
    PatternIsEmailShaped(e, 1, 3);
  }
}

=== FILE: navigation_bar.dfy ===
/** The bottom tab bar: five tabs, each with a Feather icon and neither a
    header nor a label. */
module NavigationBar {

  /** The tabs, left to right. */
  const Tabs: seq<string> := ["Home", "Search", "Reels", "Notifications", "Profile"]

  /** The icon used for a route name the switch does not list. */
  const DefaultIcon := "circle"

  /** The `tabBarIcon` switch on the route name. */
  function TabIcon(routeName: string): (icon: string)
    ensures icon == DefaultIcon <==> routeName !in Tabs
  {
    if routeName == "Home" then "home"
    else if routeName == "Search" then "search"
    else if routeName == "Reels" then "play-circle"
    else if routeName == "Notifications" then "heart"
    else if routeName == "Profile" then "user"
    else DefaultIcon
  }

  datatype TabOptions = TabOptions(headerShown: bool, showLabel: bool, icon: string)

  /** `screenOptions` for the tab named `routeName`. */
  function TabScreenOptions(routeName: string): (o: TabOptions)
    ensures !o.headerShown && !o.showLabel
    ensures o.icon == TabIcon(routeName)
    ensures o.icon != DefaultIcon <==> routeName in Tabs
  {
    TabOptions(false, false, TabIcon(routeName))
  }

  /** The five tabs have five different icons, none of them the default:
      home, search, play-circle, heart and user, in tab order. */
  lemma TabIconsDistinct()
    ensures |Tabs| == 5
    ensures seq(|Tabs|, i requires 0 <= i < |Tabs| => TabIcon(Tabs[i]))
         == ["home", "search", "play-circle", "heart", "user"]
    ensures forall i | 0 <= i < |Tabs| :: TabIcon(Tabs[i]) != DefaultIcon
    ensures forall i, j | 0 <= i < j < |Tabs| :: TabIcon(Tabs[i]) != TabIcon(Tabs[j])
  {
  }
}

=== FILE: poetry_data.dfy ===
/** The static store: the `Quote` and `Poem` records, the seven quotes, the
    two seed poems, and the random quote pick. */
module PoetryData {
  import opened Text

  datatype Quote = Quote(id: string, text: string, author: string)

  datatype Poem = Poem(id: string, title: string, content: string, author: string, date: string)

  const Quotes: seq<Quote> := [
    Quote("1", "Hope is the thing with feathers that perches in the soul and sings the tune without the words and never stops at all.", "Emily Dickinson"),
    // The literal carries a mis-decoded em dash (U+00E2 U+20AC U+201D), kept as written.
    Quote("2", "Two roads diverged in a wood, and I\U{E2}\U{20AC}\U{201D} I took the one less traveled by, and that has made all the difference.", "Robert Frost"),
    Quote("3", "The poetry of the earth is never dead.", "John Keats"),
    Quote("4", "Hold fast to dreams, for if dreams die, life is a broken-winged bird that cannot fly.", "Langston Hughes"),
    Quote("5", "In three words I can sum up everything I've learned about life: it goes on.", "Robert Frost"),
    Quote("6", "We love the things we love for what they are.", "Robert Frost"),
    Quote("7", "Poetry is the spontaneous overflow of powerful feelings: it takes its origin from emotion recollected in tranquility.", "William Wordsworth")
  ]

  const SeedPoems: seq<Poem> := [
    Poem("1", "Whispers of Dawn",
         "Morning light filters through\nLeaves dancing in the breeze\nA new day begins.",
         "Anonymous", "2025-05-01"),
    Poem("2", "Ocean Dreams",
         "Waves crash on distant shores\nCarrying memories of yesterday\nWashing away footprints\nLeaving only echoes.",
         "Anonymous", "2025-04-15")
  ]

  /** The author recorded for a poem whose author is left blank. */
  const DefaultAuthor := "Anonymous"

  /** `YYYY-MM-DD`: four digits, dash, two digits, dash, two digits. */
  predicate IsDateShape(d: string) {
    && |d| == 10
    && d[4] == '-' && d[7] == '-'
    && forall k | 0 <= k < 10 && k != 4 && k != 7 :: IsDigit(d[k])
  }

  /** `Math.floor(Math.random() * quotes.length)`, with the draw
      `Math.random()` given as the exact fraction `numer / denom` in [0, 1). */
  function RandomIndex(numer: nat, denom: nat): (k: nat)
    requires numer < denom
    ensures k < |Quotes|
    ensures k * denom <= numer * |Quotes| < (k + 1) * denom
  {
    numer * |Quotes| / denom
  }

  /** `getRandomQuote()` for the draw `numer / denom`. */
  function GetRandomQuote(numer: nat, denom: nat): (q: Quote)
    requires numer < denom
    ensures q in Quotes
  {
    Quotes[RandomIndex(numer, denom)]
  }

  /** Each quote is picked exactly by the draws in
      [i / |Quotes|, (i + 1) / |Quotes|): every quote gets an equal share of
      the unit interval, so none is unreachable. */
  lemma RandomIndexInterval(numer: nat, denom: nat, i: nat)
    requires numer < denom
    requires i < |Quotes|
    ensures RandomIndex(numer, denom) == i
        <==> i * denom <= numer * |Quotes| < (i + 1) * denom
  {
    var x := numer * |Quotes|;
    if i * denom <= x < (i + 1) * denom {
      FloorOfBracketed(x, denom, i);
    }
  }

  /** Euclidean division is determined by the bracket it falls in. */
  lemma FloorOfBracketed(x: nat, d: nat, i: nat)
    requires 0 < d
    requires i * d <= x < (i + 1) * d
    ensures x / d == i
  {
    var q, m := x / d, x % d;
    assert x == q * d + m && 0 <= m < d;
    ProductOrderCancels(q, i + 1, d);
    ProductOrderCancels(i, q + 1, d);
  }

  /** Multiplying by a positive factor preserves strict order, and so can be
      cancelled. */
  lemma ProductOrderCancels(a: int, b: int, d: nat)
    requires 0 < d
    requires a * d < b * d
    ensures a < b
  {
    assert (b - a) * d == b * d - a * d;
  }

  /** The same equal share, stated for the quote returned: `Quotes[i]` comes
      back exactly for the draws in [i / |Quotes|, (i + 1) / |Quotes|),
      since no two quotes are equal (their ids differ). */
  lemma GetRandomQuoteInterval(numer: nat, denom: nat, i: nat)
    requires numer < denom
    requires i < |Quotes|
    ensures GetRandomQuote(numer, denom) == Quotes[i]
        <==> i * denom <= numer * |Quotes| < (i + 1) * denom
  {
    QuoteIds();
    var k := RandomIndex(numer, denom);
    if Quotes[k] == Quotes[i] {
      assert Quotes[k].id == Quotes[i].id;
      assert k == i;
    }
    RandomIndexInterval(numer, denom, i);
  }

  /** Every quote is reachable: the draw i / |Quotes| returns `Quotes[i]`. */
  lemma EveryQuoteReachable(i: nat)
    requires i < |Quotes|
    ensures GetRandomQuote(i, |Quotes|) == Quotes[i]
  {
    RandomIndexInterval(i, |Quotes|, i);
  }

  /** The quote ids are "1" through "7", in order, hence pairwise distinct. */
  lemma QuoteIds()
    ensures |Quotes| == 7
    ensures forall i | 0 <= i < |Quotes| :: Quotes[i].id == NatToString(i + 1)
    ensures forall i, j | 0 <= i < j < |Quotes| :: Quotes[i].id != Quotes[j].id
  {
    forall i, j | 0 <= i < j < |Quotes|
      ensures Quotes[i].id != Quotes[j].id
    {
      NatToStringInjective(i + 1, j + 1);
    }
  }

  /** The seed poems are "1" and "2", both anonymous, both dated `YYYY-MM-DD`. */
  lemma SeedPoemFacts()
    ensures |SeedPoems| == 2
    ensures SeedPoems[0].id == NatToString(1) && SeedPoems[1].id == NatToString(2)
    ensures forall i | 0 <= i < |SeedPoems| ::
              SeedPoems[i].author == DefaultAuthor && IsDateShape(SeedPoems[i].date)
  {
  }
}

=== FILE: share_screen.dfy ===
/** The poem-sharing screen: drafts, the in-memory poem list, submission,
    and the invariant that ids are always "1" .. "n". */
module ShareScreen {
  import opened Text
  import opened PoetryData

  datatype ShareState = ShareState(poems: seq<Poem>, title: string, content: string, author: string)

  /** The `useState` initial values: the seed poems and empty drafts. */
  const InitialShare := ShareState(SeedPoems, "", "", "")

  datatype SubmitOutcome = MissingInformation | PoemAdded

  datatype Submission = Submission(state: ShareState, outcome: SubmitOutcome)

  /** `new Date().toISOString().split('T')[0]` for the timestamp `now`. */
  function DateOf(now: string): (d: string)
    ensures d <= now
    ensures 'T' !in d
    ensures |d| < |now| ==> now[|d|] == 'T'
  {
    BeforeFirst(now, 'T')
  }

  /** An ISO timestamp `YYYY-MM-DDThh:mm:ss.sssZ` yields its `YYYY-MM-DD` part. */
  lemma DateOfIsoTimestamp(day: string, time: string)
    requires IsDateShape(day)
    ensures DateOf(day + "T" + time) == day
  {
    assert 'T' !in day;
    BeforeFirstOfJoin(day, 'T', time);
  }

  /** The poem `handleSubmit` builds from the drafts, the list length and the
      timestamp. */
  function NewPoem(st: ShareState, now: string): (p: Poem)
    ensures p.id == NatToString(|st.poems| + 1)
    ensures IsDigits(p.id) && ParseDecimal(p.id) == |st.poems| + 1
    ensures p.title == Trim(st.title) && p.content == Trim(st.content)
    ensures p.author == if IsBlank(st.author) then DefaultAuthor else Trim(st.author)
    ensures p.author != ""
    ensures p.date == DateOf(now)
  {
    NatToStringRoundTrip(|st.poems| + 1);
    var author := Trim(st.author);
    Poem(NatToString(|st.poems| + 1), Trim(st.title), Trim(st.content),
         if author == "" then DefaultAuthor else author, DateOf(now))
  }

  /** `handleSubmit`: refuse blank title or content; otherwise put the new
      poem first and clear the drafts. */
  function HandleSubmit(st: ShareState, now: string): (r: Submission)
    ensures r.outcome == MissingInformation <==> IsBlank(st.title) || IsBlank(st.content)
    ensures r.outcome == MissingInformation ==> r.state == st
    ensures r.outcome == PoemAdded ==>
              && |r.state.poems| == |st.poems| + 1
              && r.state.poems[1..] == st.poems
              && r.state.poems[0] == NewPoem(st, now)
              && r.state.poems[0].title != "" && r.state.poems[0].content != ""
              && r.state.title == "" && r.state.content == "" && r.state.author == ""
  {
    if Trim(st.title) == "" || Trim(st.content) == "" then
      Submission(st, MissingInformation)
    else
      Submission(ShareState([NewPoem(st, now)] + st.poems, "", "", ""), PoemAdded)
  }

  /** The alert shown after a submission: title and message. */
  function SubmitAlert(o: SubmitOutcome): (a: (string, string))
    ensures a.0 == "Success" <==> o == PoemAdded
  {
    match o
    case MissingInformation =>
      ("Missing Information", "Please provide both a title and content for your poem.")
    case PoemAdded => ("Success", "Your poem has been added!")
  }

  /** Worked case: a blank author is recorded as "Anonymous". */
  lemma SunsetExample(poems: seq<Poem>, now: string)
    ensures var r := HandleSubmit(ShareState(poems, "Sunset", "Orange sky", ""), now);
            && r.outcome == PoemAdded
            && r.state.poems[0] == Poem(NatToString(|poems| + 1), "Sunset", "Orange sky", "Anonymous", DateOf(now))
  {
    var title, content := "Sunset", "Orange sky";
    assert !IsSpace(title[0]) && !IsSpace(title[|title| - 1]);
    assert !IsSpace(content[0]) && !IsSpace(content[|content| - 1]);
    TrimOfTrimmed(title);
    TrimOfTrimmed(content);
    assert IsBlank("");
  }

  datatype ShareEvent = EditTitle(text: string) | EditContent(text: string) | EditAuthor(text: string) | Submit(now: string)

  /** One user event on the share screen. */
  function Step(st: ShareState, ev: ShareEvent): (r: ShareState)
    ensures ev.EditTitle? ==> r == st.(title := ev.text)
    ensures ev.EditContent? ==> r == st.(content := ev.text)
    ensures ev.EditAuthor? ==> r == st.(author := ev.text)
    ensures !ev.Submit? ==> r.poems == st.poems
    ensures ev.Submit? ==> r == HandleSubmit(st, ev.now).state
  {
    match ev
    case EditTitle(t) => st.(title := t)
    case EditContent(t) => st.(content := t)
    case EditAuthor(t) => st.(author := t)
    case Submit(now) => HandleSubmit(st, now).state
  }

  /** The state after a sequence of events. */
  function Run(st: ShareState, evs: seq<ShareEvent>): ShareState
    decreases |evs|
  {
    if evs == [] then st else Run(Step(st, evs[0]), evs[1..])
  }

  function IdSet(poems: seq<Poem>): set<string> {
    set i | 0 <= i < |poems| :: poems[i].id
  }

  /** The numerals "1" .. "n". */
  function NumeralsUpTo(n: nat): set<string> {
    set v | 1 <= v <= n :: NatToString(v)
  }

  predicate DistinctIds(poems: seq<Poem>) {
    forall i, j | 0 <= i < j < |poems| :: poems[i].id != poems[j].id
  }

  /** The ids of the list are exactly "1" .. "n", each once. */
  predicate IdsAreOneToN(poems: seq<Poem>) {
    DistinctIds(poems) && IdSet(poems) == NumeralsUpTo(|poems|)
  }

  lemma IdSetPrepend(poems: seq<Poem>, p: Poem)
    ensures IdSet([p] + poems) == {p.id} + IdSet(poems)
  {
    var ps := [p] + poems;
    forall x | x in IdSet(poems) ensures x in IdSet(ps) {
      var i :| 0 <= i < |poems| && poems[i].id == x;
      assert ps[i + 1].id == x;
    }
    assert ps[0].id == p.id;
  }

  lemma NumeralsUpToNext(n: nat)
    ensures NumeralsUpTo(n + 1) == NumeralsUpTo(n) + {NatToString(n + 1)}
  {
  }

  /** The next numeral is not among "1" .. "n". */
  lemma NextNumeralIsFresh(n: nat)
    ensures NatToString(n + 1) !in NumeralsUpTo(n)
  {
    if NatToString(n + 1) in NumeralsUpTo(n) {
      var v :| 1 <= v <= n && NatToString(v) == NatToString(n + 1);
      NatToStringInjective(v, n + 1);
    }
  }

  lemma DistinctPrepend(poems: seq<Poem>, p: Poem)
    requires DistinctIds(poems)
    requires p.id !in IdSet(poems)
    ensures DistinctIds([p] + poems)
  {
    var ps := [p] + poems;
    forall i, j | 0 <= i < j < |ps| ensures ps[i].id != ps[j].id {
      assert ps[j].id == poems[j - 1].id;
      if i > 0 { assert ps[i].id == poems[i - 1].id; }
    }
  }

  /** Prepending a poem numbered `n + 1` keeps the ids "1" .. "n + 1". */
  lemma PrependKeepsIds(poems: seq<Poem>, p: Poem)
    requires IdsAreOneToN(poems)
    requires p.id == NatToString(|poems| + 1)
    ensures IdsAreOneToN([p] + poems)
  {
    IdSetPrepend(poems, p);
    NumeralsUpToNext(|poems|);
    NextNumeralIsFresh(|poems|);
    DistinctPrepend(poems, p);
  }

  lemma SeedIdsAreOneToN()
    ensures IdsAreOneToN(SeedPoems)
  {
    SeedPoemFacts();
    assert IdSet(SeedPoems) == {NatToString(1), NatToString(2)};
    assert NumeralsUpTo(2) == {NatToString(1), NatToString(2)};
    NatToStringInjective(1, 2);
  }

  /** Any run of events keeps the ids "1" .. "n" and never shrinks the list. */
  lemma {:induction false} RunKeepsIds(st: ShareState, evs: seq<ShareEvent>)
    requires IdsAreOneToN(st.poems)
    ensures IdsAreOneToN(Run(st, evs).poems)
    ensures |Run(st, evs).poems| >= |st.poems|
    decreases |evs|
  {
    if evs != [] {
      var next := Step(st, evs[0]);
      if evs[0].Submit? {
        var r := HandleSubmit(st, evs[0].now);
        if r.outcome == PoemAdded {
          assert r.state.poems == [r.state.poems[0]] + st.poems;
          PrependKeepsIds(st.poems, r.state.poems[0]);
        }
      }
      RunKeepsIds(next, evs[1..]);
    }
  }

  /** What the list section renders. */
  datatype ListView = NoPoemsMessage | PoemCards(poems: seq<Poem>)

  function ListViewOf(st: ShareState): (v: ListView)
    ensures v.NoPoemsMessage? <==> st.poems == []
  {
    if |st.poems| == 0 then NoPoemsMessage else PoemCards(st.poems)
  }

  /** From the initial screen, every reachable state has distinct ids
      "1" .. "n" with n >= 2, so "No poems shared yet" is never rendered. */
  lemma ReachableShareStates(evs: seq<ShareEvent>)
    ensures IdsAreOneToN(Run(InitialShare, evs).poems)
    ensures |Run(InitialShare, evs).poems| >= 2
    ensures ListViewOf(Run(InitialShare, evs)).PoemCards?
  {
    SeedIdsAreOneToN();
    RunKeepsIds(InitialShare, evs);
  }
}

=== FILE: text.dfy ===
/** The JavaScript string primitives the screens rely on: the whitespace class
    shared by `String.prototype.trim` and the regular-expression escape `\s`,
    `trim` itself, the UTF-16 `length` of a string, `Number.prototype.toString`
    on non-negative integers, and `split(sep)[0]`. */
module Text {

  /** JavaScript's WhiteSpace and LineTerminator code points (section 12.2 and
      12.3 of ECMA-262): the set both `trim` and `\s` strip or match. */
  predicate IsSpace(c: char) {
    || c == '\U{9}' || c == '\U{A}' || c == '\U{B}' || c == '\U{C}' || c == '\U{D}'
    || c == ' ' || c == '\U{A0}' || c == '\U{1680}'
    || ('\U{2000}' <= c <= '\U{200A}')
    || c == '\U{2028}' || c == '\U{2029}' || c == '\U{202F}' || c == '\U{205F}'
    || c == '\U{3000}' || c == '\U{FEFF}'
  }

  /** Every character is whitespace (this includes the empty string). */
  predicate IsBlank(s: string) {
    forall k | 0 <= k < |s| :: IsSpace(s[k])
  }

  /** Number of leading whitespace characters. */
  function LeadingSpaces(s: string): (n: nat)
    ensures n <= |s|
    ensures IsBlank(s[..n])
    ensures n < |s| ==> !IsSpace(s[n])
  {
    if |s| == 0 || !IsSpace(s[0]) then 0 else 1 + LeadingSpaces(s[1..])
  }

  /** Length of `s` once its trailing whitespace is removed. */
  function TrailingStart(s: string): (m: nat)
    ensures m <= |s|
    ensures IsBlank(s[m..])
    ensures m > 0 ==> !IsSpace(s[m - 1])
  {
    if |s| == 0 || !IsSpace(s[|s| - 1]) then |s| else TrailingStart(s[..|s| - 1])
  }

  /** `s.trim()`: the leading whitespace is stripped, then the trailing. */
  function Trim(s: string): (r: string)
    ensures |r| <= |s|
    ensures r == [] <==> IsBlank(s)
    ensures r != [] ==> !IsSpace(r[0]) && !IsSpace(r[|r| - 1])
    ensures exists a | 0 <= a <= |s| - |r| ::
              r == s[a..a + |r|] && IsBlank(s[..a]) && IsBlank(s[a + |r|..])
  {
    var a := LeadingSpaces(s);
    var t := s[a..];
    var b := TrailingStart(t);
    assert s[a + b..] == t[b..];
    assert s[a..a + b] == t[..b];
    assert b == 0 ==> s[..a] == s;
    t[..b]
  }

  /** A string with no whitespace at either end is its own trim. */
  lemma TrimOfTrimmed(s: string)
    requires s != [] ==> !IsSpace(s[0]) && !IsSpace(s[|s| - 1])
    ensures Trim(s) == s
  {
    if s != [] {
      assert LeadingSpaces(s) == 0;
      assert TrailingStart(s) == |s|;
    }
  }

  /** Trimming twice is trimming once. */
  lemma TrimIdempotent(s: string)
    ensures Trim(Trim(s)) == Trim(s)
  {
    TrimOfTrimmed(Trim(s));
  }

  /** Number of UTF-16 code units, which is what JavaScript's `length` counts:
      a code point beyond U+FFFF is a surrogate pair. */
  function Utf16Length(s: string): (n: nat)
    ensures |s| <= n <= 2 * |s|
    ensures (forall k | 0 <= k < |s| :: s[k] as int <= 0xFFFF) ==> n == |s|
    ensures |s| == 1 ==> n == if s[0] as int > 0xFFFF then 2 else 1
  {
    if s == [] then 0
    else (if s[0] as int > 0xFFFF then 2 else 1) + Utf16Length(s[1..])
  }

  /** The code-unit length of a concatenation is the sum of the lengths; with
      the one-character case this fixes the length of every string. */
  lemma {:induction false} Utf16LengthConcat(a: string, b: string)
    ensures Utf16Length(a + b) == Utf16Length(a) + Utf16Length(b)
  {
    if a == [] {
      assert a + b == b;
    } else {
      assert (a + b)[0] == a[0] && (a + b)[1..] == a[1..] + b;
      Utf16LengthConcat(a[1..], b);
    }
  }

  predicate IsDigit(c: char) {
    '0' <= c <= '9'
  }

  predicate IsDigits(s: string) {
    forall k | 0 <= k < |s| :: IsDigit(s[k])
  }

  function DigitChar(d: nat): (c: char)
    requires d < 10
    ensures IsDigit(c)
  {
    (('0' as int) + d) as char
  }

  function DigitValue(c: char): (d: nat)
    requires IsDigit(c)
    ensures d < 10
    ensures DigitChar(d) == c
  {
    (c as int) - ('0' as int)
  }

  /** `n.toString()` for a non-negative integer: shortest decimal numeral. */
  function NatToString(n: nat): (s: string)
    ensures |s| >= 1
    ensures IsDigits(s)
    ensures s[0] == '0' ==> n == 0
  {
    if n < 10 then [DigitChar(n)] else NatToString(n / 10) + [DigitChar(n % 10)]
  }

  /** The value of a decimal numeral (an inverse of `NatToString`). */
  function ParseDecimal(s: string): (n: nat)
    requires IsDigits(s)
  {
    if s == [] then 0
    else ParseDecimal(s[..|s| - 1]) * 10 + DigitValue(s[|s| - 1])
  }

  /** Printing then parsing a number gives the number back. */
  lemma {:induction false} NatToStringRoundTrip(n: nat)
    ensures ParseDecimal(NatToString(n)) == n
  {
    if n >= 10 {
      var s := NatToString(n);
      assert s[..|s| - 1] == NatToString(n / 10);
      NatToStringRoundTrip(n / 10);
    }
  }

  /** Distinct numbers print as distinct numerals. */
  lemma NatToStringInjective(m: nat, n: nat)
    ensures NatToString(m) == NatToString(n) <==> m == n
  {
    if NatToString(m) == NatToString(n) {
      NatToStringRoundTrip(m);
      NatToStringRoundTrip(n);
    }
  }

  /** `s.split(sep)[0]`: everything before the first `sep`, or all of `s`. */
  function BeforeFirst(s: string, sep: char): (r: string)
    ensures r <= s
    ensures sep !in r
    ensures |r| < |s| ==> s[|r|] == sep
  {
    if s == [] || s[0] == sep then [] else [s[0]] + BeforeFirst(s[1..], sep)
  }

  /** The first field of `d + [sep] + rest` split at `sep` is `d` when `d`
      does not contain `sep`. */
  lemma {:induction false} BeforeFirstOfJoin(d: string, sep: char, rest: string)
    requires sep !in d
    ensures BeforeFirst(d + [sep] + rest, sep) == d
  {
    if d != [] {
      assert (d + [sep] + rest)[1..] == d[1..] + [sep] + rest;
      BeforeFirstOfJoin(d[1..], sep, rest);
    }
  }
}

=== FILE: wrappers.dfy ===
/** The optional-value datatype used for JavaScript's `undefined`-able props
    and for navigation targets that may be absent. */
module Wrappers {

  datatype Option<+T> = None | Some(value: T) {

    /** The wrapped value, or `default` when there is none (a defaulted prop). */
    function GetOr(default: T): T {
      match this
      case Some(v) => v
      case None => default
    }
  }
}
